=== FILE: README.md ===
# Weather client: search, autocomplete and background selection

This project models the logic of a single-page weather lookup client written
in React. It covers two parts of that client. The first is the `App`
component's search and autocomplete state, without its markup. The second is
the rule that picks the decorative background from the current weather.

- `JsString` (`js_string.dfy`) defines the JavaScript string behaviour the
  component depends on. `Trim` is `String.prototype.trim`, with ECMAScript's
  set of whitespace and line-terminator code points. `Utf16Length` is
  `length`, which counts UTF-16 code units.
- `WeatherBackground` (`background.dfy`) defines the asset table and
  `getBackground`. The assets are a datatype, and the table is an explicit
  finite map with the fallback video under `default`.
- `App` (`app.dfy`) models the component state: `weather`, `city`,
  `suggestions`, `unit` and `error`, plus the query of the one armed debounce
  timer (`pending`). Every handler is a pure transition. `OnChange`,
  `NewSearch` and `ToggleUnit` map a state to a state. `FireTimer`,
  `FetchWeatherData`, `HandleSearch` and `ClickSuggestion` also take a network
  outcome (`Ok(payload)`, `NotOk` or `Throw(message)`). They return a `Step`:
  the new state together with the request issued, if any. The suggestion
  `useEffect` is `RunEffect`. `Commit` re-runs that effect only when `city`
  changed by value or `weather` changed by reference, which is when React
  re-runs an effect. The time is an integer parameter in milliseconds.
- `AppTraces` (`app_traces.dfy`) plays sequences of events. An event counts
  only while the view renders the control it comes from. The input form is
  shown only without a snapshot, and "New Search" and the unit button only
  with one. The module proves properties that hold along every such
  sequence.

In these details the model follows what the code does:
- The autocomplete guard counts UTF-16 code units of the trimmed input.
- The geocoding lookup is sent the untrimmed input.
- A thrown weather-request error shows the thrown error's own message, not a
  fixed one. Only a non-2xx response shows "City not found".
- The error is cleared before the request is sent, not when it succeeds.
- `isDay` is a plain boolean, and the background asks for it only while a
  snapshot is held.

## Model

| member | source | states |
|---|---|---|
| JsString.Trim | src/App.jsx:27 | the trimmed input neither starts nor ends with whitespace and fits inside the input after the dropped leading part |
| JsString.TrimStartShape | src/App.jsx:27 | stripping leading whitespace keeps a suffix of the input, and every dropped character is whitespace |
| JsString.TrimEndShape | src/App.jsx:27 | stripping trailing whitespace keeps a prefix of the input, and every dropped character is whitespace |
| JsString.TrimShape | src/App.jsx:27 | `trim` yields the contiguous middle of the input, and only whitespace is dropped on either side |
| JsString.TrimEmptyIffAllWhitespace | src/App.jsx:62 | `!city.trim()` holds exactly when the input is empty or whitespace only |
| JsString.TrimIdempotent | src/App.jsx:68 | the trimmed city sent in a search is already trimmed |
| JsString.Utf16Length | src/App.jsx:27 | `length` is between the number of code points and twice that |
| JsString.Utf16LengthIsSizeIffBmp | src/App.jsx:27 | `length` equals the number of code points exactly when every code point is in the Basic Multilingual Plane |
| WeatherBackground.GetBackground | src/components/WeatherBackground.jsx:26-36 | no condition gives the video; with a condition the result is the video exactly when `main` is not one of the ten categories, otherwise an image; Clear and Clouds give the day variant when `isDay` holds and the night variant otherwise |
| WeatherBackground.DrizzleIsRain | src/components/WeatherBackground.jsx:14-15 | Drizzle and Rain both give the rain image, day or night |
| WeatherBackground.HazeAliases | src/components/WeatherBackground.jsx:19-22 | Mist, Smoke, Haze and Fog all give the haze image, day or night |
| WeatherBackground.SingleImageCategories | src/components/WeatherBackground.jsx:13-16 | Thunderstorm and Snow give their own image regardless of `isDay` |
| WeatherBackground.DayMattersIff | src/components/WeatherBackground.jsx:31-35 | flipping `isDay` changes the result if and only if `main` is Clear or Clouds |
| App.RunEffect | src/App.jsx:27-31 | the effect arms a timer for the current input when the trimmed input has at least 3 units and no snapshot is held; otherwise it empties the suggestions and leaves no timer; it keeps the invariant |
| App.Commit | src/App.jsx:32 | when neither `city` nor `weather` changed the update is kept as is; otherwise the effect re-runs, so a timer for the new input is armed exactly when the guard holds and the suggestions are emptied otherwise; the invariant holds afterwards |
| App.OnChange | src/App.jsx:26-32 | typing (the input's handler at line 92) sets `city`; a changed text replaces any armed timer with one for the new text or clears the suggestions; retyping the same text changes nothing; weather, unit and error are untouched |
| App.FireTimer | src/App.jsx:34-44 | a firing timer requests a geocoding lookup for its own query with limit 5; a 2xx response becomes the suggestion list verbatim; a non-2xx response or a thrown error empties it; weather, city, unit and error are untouched; nothing happens without an armed timer |
| App.FetchWeatherData | src/App.jsx:46-58 | success replaces the snapshot, sets `city` to the supplied name if non-empty and to the response's name otherwise, and clears suggestions, timer and error; a non-2xx response sets "City not found"; a thrown error sets its message; on failure nothing but `error` changes |
| App.HandleSearch | src/App.jsx:60-70 | blank input sets "Please enter a valid city name." and issues no request; otherwise the request is by the trimmed, non-empty city, and on success the response's own name becomes `city` |
| App.ClickSuggestion | src/App.jsx:104-108 | a suggestion click requests the weather by that suggestion's coordinates; on success `city` becomes the suggestion's name when that is non-empty |
| App.NewSearch | src/App.jsx:129-132 | "New Search" drops the snapshot and empties the input, which also clears suggestions and timer; unit and error are untouched |
| App.ToggleUnit | src/App.jsx:143 | the unit button changes the unit and no other field |
| App.ToggleTwice | src/App.jsx:143 | toggling twice is the identity |
| App.IsDayIff | src/App.jsx:75-77 | it is day exactly when sunrise·1000 < now < sunset·1000 (milliseconds), both bounds strict |
| App.GetWeatherCondition | src/App.jsx:72-78 | a condition exists exactly when a snapshot is held; it carries the snapshot's category and whether now lies strictly between sunrise and sunset |
| App.Background | src/App.jsx:82 | without a snapshot the video is shown; with one, the video is shown exactly when its category is unknown |
| AppTraces.Apply | src/App.jsx:88-143 | every event the view can deliver keeps the invariant |
| AppTraces.InitialReachable | src/App.jsx:18-22 | the initial state satisfies the invariant of reachable states |
| AppTraces.ApplyKeepsReachable | src/App.jsx:88-125 | an enabled event keeps the state reachable, and any request it issues is well-formed |
| AppTraces.SubmitKeepsReachable | src/App.jsx:60-70 | submitting the form keeps the state reachable and requests only a non-blank, trimmed name |
| AppTraces.RunKeepsReachable | src/App.jsx:26-70 | along any event sequence: no geocoding lookup for fewer than 3 trimmed units, no weather lookup for blank input, and no error shown alongside a result |
| AppTraces.UnitOnlyToggles | src/App.jsx:143 | an event sequence without the unit button leaves the unit unchanged |
| AppTraces.OnlyLatestQueryFires | src/App.jsx:28-29 | after several texts typed in a row, a firing timer can only look up the last one; superseded timers never fire |
| AppTraces.ShortInputNeverSchedules | src/App.jsx:27-31 | input under 3 trimmed units leaves no timer armed and no suggestions |
| AppTraces.LondonTyping | src/App.jsx:26-32 | "Lo" arms no timer; typing "Lon" then "Lond" leads to a lookup of "Lond" only |
| AppTraces.PickedNameWins | src/App.jsx:104-107 | picking "London" keeps "London" as the input even when the response's name is "Greater London" |
| AppTraces.NewSearchShowsVideo | src/App.jsx:129-132 | after "New Search" the fallback video is the background |

## Left out

- The helpers `convertTemperature`, `getHumidityValue`, `getWindDirection` and `getVisibilityValue` are not modelled. The source of `src/components/Helper` is not available, so their thresholds and rounding cannot be read.
- `src/components/Icons.jsx` and all markup and styling are left out. They are rendering only.
- The fetch mechanism, URL construction, the API key and JSON parsing are abstract. Each request is a `Request` value, and its outcome is a `Response` supplied to the transition.
- Interleaved requests are not modelled. Each transition applies its response at once, so out-of-order responses, the render between clearing the error and the response, and a request that never resolves are out of scope.
- The 500 ms delay, real-time timer behaviour, unmount cleanup and React Strict Mode's double effects are left out. The timer is modelled only as at most one armed query, replaced on every change and fired by an event.
- Floating-point fields such as temperatures, wind speed and coordinates are carried as `real` values. No arithmetic is done on them.
- IsDay: takes `Date.now() / 1000` as exact division, not double-precision division. The two agree for every timestamp below 2^53 milliseconds.
- IsDay: the source reads the clock twice, once for each bound. The model uses one reading `nowMs` for both, so it can differ from the source when the clock ticks across sunrise or sunset between the two reads.
- `toLocaleTimeString` formatting of sunrise and sunset is left out. The displayed heading is `weather.name`, not `city`, and is not modelled.
- Malformed responses are not modelled.
  - The model assumes every weather payload has a `sys` object and a first `weather` entry. Without them the component throws while rendering (src/App.jsx:74-76).
  - The model also assumes every weather payload has a string `name`. Without it, a typed search sets `city` to undefined, and the suggestion effect then throws at `city.trim()` (src/App.jsx:27). A click on a suggestion with a non-empty name is unaffected.
  - The model assumes every 2xx geocoding body is a list of places. A non-array body is stored as the suggestions but never listed, and nothing throws. Places without a `name` or `country` still render.
- JavaScript object-key quirks of the asset lookup (a `main` such as `constructor`) are not modelled. The table is an explicit finite map.
- Lone UTF-16 surrogates cannot appear in a Dafny string, so `Utf16Length` does not cover them.

=== FILE: app.dfy ===
/** The search and autocomplete state of the `App` component, as pure
    transitions. Network responses are inputs to the transitions, the current
    time is a parameter, and the one debounce timer is the query it will fetch.
    Each transition returns the new state and the request it issues, if any. */
module App {
  import opened Wrappers
  import opened JsString
  import WeatherBackground

  /** Display unit for temperatures, `"C"` or `"F"`. */
  datatype Unit = C | F

  /** One geocoding result. Coordinates are carried, never computed with. */
  datatype Place = Place(name: string, country: string, lat: real, lon: real)

  /** The fields of one weather response the application reads; `main`,
      `description` and `icon` come from the first entry of its `weather`
      array, `sunrise` and `sunset` are epoch seconds. */
  datatype Snapshot = Snapshot(
    name: string,
    main: string,
    description: string,
    icon: string,
    temp: real,
    feelsLike: real,
    humidity: int,
    pressure: int,
    windSpeed: real,
    windDeg: int,
    visibility: int,
    sunrise: int,
    sunset: int)

  /** The component state. `pending` is the query the live debounce timer
      will fetch when it fires; `None` when no timer is armed. An empty
      `error` means no error is shown. */
  datatype State = State(
    weather: Option<Snapshot>,
    city: string,
    suggestions: seq<Place>,
    unit: Unit,
    error: string,
    pending: Option<string>)

  /** How a request ended: a 2xx response whose body parsed to `payload`, a
      non-2xx response, or a thrown error (network failure or unparsable
      body) with its message. */
  datatype Response<T> = Ok(payload: T) | NotOk | Throw(message: string)

  /** The requests the component issues. */
  datatype Request =
    | Geocode(query: string, limit: nat)
    | WeatherByName(city: string)
    | WeatherByCoords(lat: real, lon: real)

  datatype Step = Step(state: State, request: Option<Request>)

  const MinQueryLength := 3
  const SuggestionLimit := 5
  const InvalidCityMessage := "Please enter a valid city name."
  const NotFoundMessage := "City not found"

  /** The state after mounting: no weather, empty input, Celsius, no error. */
  const Initial := State(None, "", [], C, "", None)

  /** The suggestion effect's guard: at least three UTF-16 units after
      trimming, and no weather snapshot held. */
  predicate ShouldSchedule(s: State) {
    Utf16Length(Trim(s.city)) >= MinQueryLength && s.weather.None?
  }

  /** What the state machine keeps true: a live timer is always for the
      current input and only exists while the guard holds; while the guard
      fails there are neither suggestions nor a timer. */
  predicate Inv(s: State) {
    && (s.pending.Some? ==> s.pending.value == s.city && ShouldSchedule(s))
    && (!ShouldSchedule(s) ==> s.suggestions == [] && s.pending.None?)
  }

  /** One run of the suggestion effect, after the previous run's cleanup has
      cancelled any armed timer: arm a timer for the current input when the
      guard holds, otherwise clear the suggestions. */
  function RunEffect(s: State): (r: State)
    ensures Inv(r)
    ensures r.weather == s.weather && r.city == s.city && r.unit == s.unit && r.error == s.error
    ensures ShouldSchedule(s) ==> r.pending == Some(s.city) && r.suggestions == s.suggestions
    ensures !ShouldSchedule(s) ==> r.pending.None? && r.suggestions == []
  {
    if ShouldSchedule(s) then s.(pending := Some(s.city))
    else s.(suggestions := [], pending := None)
  }

  /** Commit a state update. The effect re-runs only when one of its
      dependencies changed: `city` by value, `weather` by reference, which
      `newWeather` reports for a freshly parsed response. */
  function Commit(prev: State, next: State, newWeather: bool): (r: State)
    ensures (&& Inv(prev) && next.pending == prev.pending && next.suggestions == prev.suggestions
             && next.city == prev.city && next.weather == prev.weather) ==> Inv(r)
    ensures next.city != prev.city || next.weather != prev.weather || newWeather ==> Inv(r)
    ensures r.weather == next.weather && r.city == next.city && r.unit == next.unit && r.error == next.error
    ensures next.city == prev.city && next.weather == prev.weather && !newWeather ==> r == next
    ensures next.city != prev.city || next.weather != prev.weather || newWeather ==>
              && r.pending == (if ShouldSchedule(next) then Some(next.city) else None)
              && r.suggestions == (if ShouldSchedule(next) then next.suggestions else [])
  {
    if next.city != prev.city || next.weather != prev.weather || newWeather then RunEffect(next)
    else next
  }

  /** Typing in the input. The new text replaces `city`; a changed text
      cancels any armed timer and either arms one for the new text or clears
      the suggestions. Typing the text already there re-renders nothing. */
  function OnChange(s: State, text: string): (r: State)
    ensures r.city == text
    ensures r.weather == s.weather && r.unit == s.unit && r.error == s.error
    ensures Inv(s) ==> Inv(r)
    ensures text == s.city ==> r == s
    ensures text != s.city && ShouldSchedule(r) ==> r.pending == Some(text) && r.suggestions == s.suggestions
    ensures Inv(s) && !ShouldSchedule(r) ==> r.pending.None? && r.suggestions == []
  {
    Commit(s, s.(city := text), false)
  }

  /** The debounce timer fires and `fetchSuggestions` runs for its query,
      asking for at most five places. A 2xx response supplies the suggestions
      verbatim; a non-2xx response or a thrown error empties them silently.
      Nothing else changes, and with no timer armed nothing happens. */
  function FireTimer(s: State, res: Response<seq<Place>>): (r: Step)
    ensures s.pending.None? ==> r == Step(s, None)
    ensures s.pending.Some? ==> r.request == Some(Geocode(s.pending.value, SuggestionLimit))
    ensures s.pending.Some? ==> r.state.pending.None?
    ensures s.pending.Some? && res.Ok? ==> r.state.suggestions == res.payload
    ensures s.pending.Some? && !res.Ok? ==> r.state.suggestions == []
    ensures r.state.weather == s.weather && r.state.city == s.city
    ensures r.state.unit == s.unit && r.state.error == s.error
    ensures Inv(s) ==> Inv(r.state)
  {
    match s.pending
    case None => Step(s, None)
    case Some(query) =>
      var suggestions := match res
        case Ok(places) => places
        case NotOk => []
        case Throw(_) => [];
      Step(s.(suggestions := suggestions, pending := None), Some(Geocode(query, SuggestionLimit)))
  }

  /** `fetchWeatherData`: clear the error, issue `req`, then apply the
      outcome. Success replaces the snapshot wholesale, sets `city` to `name`
      when it is non-empty and to the response's own name otherwise, and
      clears the suggestions (and, through the effect, the timer). Failure
      sets the error, "City not found" for a non-2xx response, and leaves
      the snapshot, the input and the suggestions as they were. */
  function FetchWeatherData(s: State, req: Request, name: string, res: Response<Snapshot>): (r: Step)
    ensures r.request == Some(req)
    ensures r.state.unit == s.unit
    ensures res.Ok? ==> && r.state.weather == Some(res.payload)
                        && r.state.city == (if name != "" then name else res.payload.name)
                        && r.state.suggestions == [] && r.state.pending.None?
                        && r.state.error == ""
    ensures res.NotOk? ==> r.state == s.(error := NotFoundMessage)
    ensures res.Throw? ==> r.state == s.(error := res.message)
    ensures Inv(s) ==> Inv(r.state)
  {
    var cleared := s.(error := "");
    match res
    case Ok(data) =>
      var next := cleared.(weather := Some(data), city := if name != "" then name else data.name,
                           suggestions := []);
      Step(Commit(cleared, next, true), Some(req))
    case NotOk => Step(cleared.(error := NotFoundMessage), Some(req))
    case Throw(message) => Step(cleared.(error := message), Some(req))
  }

  /** Submitting the form. A blank input sets the validation error and
      issues nothing; otherwise the weather is requested by the trimmed
      input, and the response's own name becomes the input text. */
  function HandleSearch(s: State, res: Response<Snapshot>): (r: Step)
    ensures AllWhitespace(s.city) ==> r == Step(s.(error := InvalidCityMessage), None)
    ensures !AllWhitespace(s.city) ==>
              && r.request == Some(WeatherByName(Trim(s.city)))
              && Trim(s.city) != []
              && r == FetchWeatherData(s, WeatherByName(Trim(s.city)), "", res)
    ensures !AllWhitespace(s.city) && res.Ok? ==> r.state.city == res.payload.name
    ensures Inv(s) ==> Inv(r.state)
  {
    TrimEmptyIffAllWhitespace(s.city);
    if Trim(s.city) == [] then Step(s.(error := InvalidCityMessage), None)
    else FetchWeatherData(s, WeatherByName(Trim(s.city)), "", res)
  }

  /** Clicking the suggestion at `index`: the weather is requested by its
      coordinates, and on success the input shows the suggestion's name
      (the response's name only if the suggestion's is empty). */
  function ClickSuggestion(s: State, index: nat, res: Response<Snapshot>): (r: Step)
    requires index < |s.suggestions|
    ensures r.request == Some(WeatherByCoords(s.suggestions[index].lat, s.suggestions[index].lon))
    ensures res.Ok? && s.suggestions[index].name != "" ==> r.state.city == s.suggestions[index].name
    ensures r == FetchWeatherData(s, r.request.value, s.suggestions[index].name, res)
    ensures Inv(s) ==> Inv(r.state)
  {
    var place := s.suggestions[index];
    FetchWeatherData(s, WeatherByCoords(place.lat, place.lon), place.name, res)
  }

  /** "New Search": drop the snapshot and empty the input, which clears the
      suggestions and any timer; the unit and the error stay. */
  function NewSearch(s: State): (r: State)
    ensures r.weather.None? && r.city == ""
    ensures r.unit == s.unit && r.error == s.error
    ensures Inv(s) ==> r.suggestions == [] && r.pending.None?
    ensures Inv(s) ==> Inv(r)
  {
    Commit(s, s.(weather := None, city := ""), false)
  }

  /** The unit button: Celsius becomes Fahrenheit and anything else becomes
      Celsius; no other field changes. */
  function ToggleUnit(s: State): (r: State)
    ensures r.unit != s.unit
    ensures r.(unit := s.unit) == s
  {
    s.(unit := if s.unit == C then F else C)
  }

  /** Toggling the unit twice restores the state. */
  lemma ToggleTwice(s: State)
    ensures ToggleUnit(ToggleUnit(s)) == s
  {
  }

  /** Whether it is day at `nowMs` (milliseconds since the epoch, as
      `Date.now()` returns): the time in seconds lies strictly between
      sunrise and sunset. */
  predicate IsDay(nowMs: int, w: Snapshot) {
    var nowSec := nowMs as real / 1000.0;
    nowSec > w.sunrise as real && nowSec < w.sunset as real
  }

  /** Day, stated in whole milliseconds: both bounds are strict. */
  lemma IsDayIff(nowMs: int, w: Snapshot)
    ensures IsDay(nowMs, w) <==> w.sunrise * 1000 < nowMs < w.sunset * 1000
  {
  }

  /** `getWeatherCondition`: nothing without a snapshot, otherwise its
      category and whether it is day. */
  function GetWeatherCondition(s: State, nowMs: int): (r: Option<WeatherBackground.Condition>)
    ensures r.None? <==> s.weather.None?
    ensures r.Some? ==> r.value.main == s.weather.value.main
    ensures r.Some? ==> (r.value.isDay <==> s.weather.value.sunrise * 1000 < nowMs < s.weather.value.sunset * 1000)
  {
    match s.weather
    case None => None
    case Some(w) =>
      IsDayIff(nowMs, w);
      Some(WeatherBackground.Condition(w.main, IsDay(nowMs, w)))
  }

  /** The background the component shows at `nowMs`. */
  function Background(s: State, nowMs: int): (r: WeatherBackground.Asset)
    ensures s.weather.None? ==> r == WeatherBackground.Video
    ensures s.weather.Some? ==> (r == WeatherBackground.Video <==> !WeatherBackground.IsCategory(s.weather.value.main))
  {
    WeatherBackground.GetBackground(GetWeatherCondition(s, nowMs))
  }
}

=== FILE: app_traces.dfy ===
/** Sequences of user and timer events driving the `App` state machine, and
    the properties that hold along every such sequence. */
module AppTraces {
  import opened Wrappers
  import opened JsString
  import opened App

  /** The things that can happen to the component. */
  datatype Event =
    | Type(text: string)
    | TimerFires(geo: Response<seq<Place>>)
    | Submit(res: Response<Snapshot>)
    | Pick(index: nat, res: Response<Snapshot>)
    | StartOver
    | Toggle

  /** Whether the view offers the control an event comes from: the input,
      the submit button and the suggestion buttons exist only while no
      snapshot is held (a suggestion button only for a listed suggestion);
      "New Search" and the unit button only while one is. The timer can fire
      at any time. */
  predicate Enabled(s: State, e: Event) {
    match e
    case Type(_) => s.weather.None?
    case TimerFires(_) => true
    case Submit(_) => s.weather.None?
    case Pick(index, _) => s.weather.None? && index < |s.suggestions|
    case StartOver => s.weather.Some?
    case Toggle => s.weather.Some?
  }

  function Apply(s: State, e: Event): (r: Step)
    requires Enabled(s, e)
    ensures Inv(s) ==> Inv(r.state)
  {
    match e
    case Type(text) => Step(OnChange(s, text), None)
    case TimerFires(geo) => FireTimer(s, geo)
    case Submit(res) => HandleSearch(s, res)
    case Pick(index, res) => ClickSuggestion(s, index, res)
    case StartOver => Step(NewSearch(s), None)
    case Toggle => Step(ToggleUnit(s), None)
  }

  /** Play `events` from `s`; an event whose control is not on screen cannot
      happen and is skipped. Returns the final state and the requests issued,
      in order. */
  function Run(s: State, events: seq<Event>): (State, seq<Request>)
    decreases |events|
  {
    if events == [] then (s, [])
    else
      var step := if Enabled(s, events[0]) then Apply(s, events[0]) else Step(s, None);
      var rest := Run(step.state, events[1..]);
      (rest.0, (if step.request.Some? then [step.request.value] else []) + rest.1)
  }

  /** The invariant of reachable states: the state machine's invariant, and
      no error is left over while a result is shown. */
  predicate Reachable(s: State) {
    Inv(s) && (s.weather.Some? ==> s.error == "")
  }

  /** A request the component may legitimately issue: a geocoding lookup for
      at least three UTF-16 units of trimmed text with the limit of five, or a
      weather lookup by a non-blank, already trimmed name. */
  predicate WellFormed(req: Request) {
    match req
    case Geocode(query, limit) => Utf16Length(Trim(query)) >= MinQueryLength && limit == SuggestionLimit
    case WeatherByName(city) => city != [] && Trim(city) == city
    case WeatherByCoords(_, _) => true
  }

  lemma InitialReachable()
    ensures Reachable(Initial)
  {
  }

  /** One enabled event keeps a state reachable and issues only well-formed
      requests. */
  lemma ApplyKeepsReachable(s: State, e: Event)
    requires Reachable(s) && Enabled(s, e)
    ensures Reachable(Apply(s, e).state)
    ensures Apply(s, e).request.Some? ==> WellFormed(Apply(s, e).request.value)
  {
    match e
    case Type(text) =>
    case TimerFires(geo) =>
      if s.pending.Some? {
        assert ShouldSchedule(s);
      }
    case Submit(res) =>
      SubmitKeepsReachable(s, res);
    case Pick(index, res) =>
      var r := ClickSuggestion(s, index, res);
      assert r.state.weather.Some? ==> res.Ok?;
    case StartOver =>
    case Toggle =>
  }

  lemma SubmitKeepsReachable(s: State, res: Response<Snapshot>)
    requires Reachable(s) && s.weather.None?
    ensures Reachable(HandleSearch(s, res).state)
    ensures HandleSearch(s, res).request.Some? ==> WellFormed(HandleSearch(s, res).request.value)
  {
    var r := HandleSearch(s, res);
    if !AllWhitespace(s.city) {
      TrimIdempotent(s.city);
      assert r.state.weather.Some? ==> res.Ok?;
    }
  }

  /** Along any sequence of events from a reachable state, every state is
      reachable and every request issued is well-formed: no geocoding lookup
      for short input, no weather lookup for blank input. */
  lemma {:induction false} RunKeepsReachable(s: State, events: seq<Event>)
    requires Reachable(s)
    ensures Reachable(Run(s, events).0)
    ensures forall i :: 0 <= i < |Run(s, events).1| ==> WellFormed(Run(s, events).1[i])
    decreases |events|
  {
    if events != [] {
      var step := if Enabled(s, events[0]) then Apply(s, events[0]) else Step(s, None);
      if Enabled(s, events[0]) {
        ApplyKeepsReachable(s, events[0]);
      }
      RunKeepsReachable(step.state, events[1..]);
    }
  }

  /** The unit changes only through the unit button. */
  lemma {:induction false} UnitOnlyToggles(s: State, events: seq<Event>)
    requires forall i :: 0 <= i < |events| ==> !events[i].Toggle?
    ensures Run(s, events).0.unit == s.unit
    decreases |events|
  {
    if events != [] {
      var step := if Enabled(s, events[0]) then Apply(s, events[0]) else Step(s, None);
      assert step.state.unit == s.unit;
      UnitOnlyToggles(step.state, events[1..]);
    }
  }

  /** Typing each of `texts` in turn. */
  function TypeAll(s: State, texts: seq<string>): State
    decreases |texts|
  {
    if texts == [] then s else TypeAll(OnChange(s, texts[0]), texts[1..])
  }

  /** Debounce supersession: after typing several texts in a row, the only
      timer that can be live is the one for the last text, so when the timer
      fires it looks up that text and no earlier one. */
  lemma {:induction false} OnlyLatestQueryFires(s: State, texts: seq<string>, geo: Response<seq<Place>>)
    requires Inv(s) && |texts| > 0
    ensures Inv(TypeAll(s, texts))
    ensures TypeAll(s, texts).city == texts[|texts| - 1]
    ensures FireTimer(TypeAll(s, texts), geo).request.Some? ==>
              FireTimer(TypeAll(s, texts), geo).request.value == Geocode(texts[|texts| - 1], SuggestionLimit)
    decreases |texts|
  {
    var next := OnChange(s, texts[0]);
    if |texts| > 1 {
      OnlyLatestQueryFires(next, texts[1..], geo);
      assert texts[1..][|texts| - 2] == texts[|texts| - 1];
    }
  }

  /** Input shorter than three UTF-16 units after trimming never leaves a
      timer armed. */
  lemma ShortInputNeverSchedules(s: State, text: string)
    requires Inv(s) && Utf16Length(Trim(text)) < MinQueryLength
    ensures OnChange(s, text).pending.None?
    ensures OnChange(s, text).suggestions == []
  {
  }

  /** After "New Search" the fallback video is shown, whatever the time. */
  lemma NewSearchShowsVideo(s: State, nowMs: int)
    ensures Background(NewSearch(s), nowMs) == WeatherBackground.Video
  {
  }

  /** A word of ASCII letters is its own trim, and its JavaScript length is
      its number of characters. */
  lemma LetterWord(w: string)
    requires forall i :: 0 <= i < |w| ==> 'A' <= w[i] <= 'Z' || 'a' <= w[i] <= 'z'
    ensures Trim(w) == w && Utf16Length(w) == |w|
  {
    if w != [] {
      assert !IsWhitespace(w[0]) && !IsWhitespace(w[|w| - 1]);
      assert TrimStart(w) == w;
      assert TrimEnd(w) == w;
    }
  }

  /** Typing "Lon" and then "Lond" before the timer fires: the lookup that
      follows is for "Lond"; "Lo" alone never arms a timer. */
  lemma LondonTyping(geo: Response<seq<Place>>)
    ensures OnChange(Initial, "Lo").pending.None?
    ensures FireTimer(TypeAll(Initial, ["Lon", "Lond"]), geo).request == Some(Geocode("Lond", SuggestionLimit))
  {
    LetterWord("Lo");
    LetterWord("Lon");
    LetterWord("Lond");
    var s1 := OnChange(Initial, "Lon");
    var s2 := OnChange(s1, "Lond");
    assert ["Lon", "Lond"][1..] == ["Lond"];
    assert TypeAll(Initial, ["Lon", "Lond"]) == TypeAll(s1, ["Lond"]);
    assert ["Lond"][1..] == [];
    assert TypeAll(s1, ["Lond"]) == s2;
    assert s2.pending == Some("Lond");
  }

  /** Picking the suggestion "London" keeps that name in the input even when
      the weather response calls the place "Greater London". */
  lemma PickedNameWins(s: State, w: Snapshot)
    requires s.suggestions == [Place("London", "GB", 51.5, -0.12)]
    requires w.name == "Greater London"
    ensures ClickSuggestion(s, 0, Ok(w)).state.city == "London"
    ensures ClickSuggestion(s, 0, Ok(w)).request == Some(WeatherByCoords(51.5, -0.12))
  {
  }
}

=== FILE: background.dfy ===
/** The decorative background: a fixed table from the weather category
    reported by the weather API (`weather[0].main`) to an animated image, with
    a looping video as the fallback. */
module WeatherBackground {
  import opened Wrappers

  /** The asset files the table refers to; `Video` is the looping video, all
      others are images. */
  datatype Asset =
    | Thunderstorm | Rain | Snow | ClearDay | ClearNight | CloudsDay | CloudsNight | Haze
    | Video

  /** A table value: one asset, or a day/night pair. */
  datatype Entry = Single(asset: Asset) | DayNight(day: Asset, night: Asset)

  /** What the application passes in while it holds a weather snapshot. */
  datatype Condition = Condition(main: string, isDay: bool)

  const DefaultKey := "default"

  /** The asset table, aliases included, with the fallback under `default`. */
  const AssetsMap: map<string, Entry> := map[
    "Thunderstorm" := Single(Thunderstorm),
    "Drizzle" := Single(Rain),
    "Rain" := Single(Rain),
    "Snow" := Single(Snow),
    "Clear" := DayNight(ClearDay, ClearNight),
    "Clouds" := DayNight(CloudsDay, CloudsNight),
    "Mist" := Single(Haze),
    "Smoke" := Single(Haze),
    "Haze" := Single(Haze),
    "Fog" := Single(Haze),
    DefaultKey := Single(Video)
  ]

  /** The weather categories that have an image of their own, listed
      independently of the table. */
  predicate IsCategory(main: string) {
    main in {"Thunderstorm", "Drizzle", "Rain", "Snow", "Clear", "Clouds", "Mist", "Smoke", "Haze", "Fog"}
  }

  /** Categories whose image depends on whether it is day. */
  predicate HasDayNightPair(main: string) {
    main == "Clear" || main == "Clouds"
  }

  /** The background for an optional condition: the video when there is no
      condition or its category is unknown, an image for every known
      category, and the day or night variant for Clear and Clouds. */
  function GetBackground(condition: Option<Condition>): (r: Asset)
    ensures condition.None? ==> r == Video
    ensures condition.Some? ==> (r == Video <==> !IsCategory(condition.value.main))
    ensures condition.Some? && condition.value.main == "Clear" ==>
              r == (if condition.value.isDay then ClearDay else ClearNight)
    ensures condition.Some? && condition.value.main == "Clouds" ==>
              r == (if condition.value.isDay then CloudsDay else CloudsNight)
  {
    match condition
    case None => AssetsMap[DefaultKey].asset
    case Some(c) =>
      var entry := if c.main in AssetsMap then AssetsMap[c.main] else AssetsMap[DefaultKey];
      match entry
      case DayNight(day, night) => if c.isDay then day else night
      case Single(asset) => asset
  }

  /** Drizzle and Rain share the rain image, by day and by night. */
  lemma DrizzleIsRain(isDay: bool)
    ensures GetBackground(Some(Condition("Drizzle", isDay))) == Rain
    ensures GetBackground(Some(Condition("Rain", isDay))) == Rain
  {
  }

  /** Mist, Smoke, Haze and Fog share the haze image, by day and by night. */
  lemma HazeAliases(isDay: bool)
    ensures GetBackground(Some(Condition("Mist", isDay))) == Haze
    ensures GetBackground(Some(Condition("Smoke", isDay))) == Haze
    ensures GetBackground(Some(Condition("Haze", isDay))) == Haze
    ensures GetBackground(Some(Condition("Fog", isDay))) == Haze
  {
  }

  /** Thunderstorm and Snow have one image each, regardless of the time of day. */
  lemma SingleImageCategories(isDay: bool)
    ensures GetBackground(Some(Condition("Thunderstorm", isDay))) == Thunderstorm
    ensures GetBackground(Some(Condition("Snow", isDay))) == Snow
  {
  }

  /** Flipping `isDay` changes the background exactly for Clear and Clouds. */
  lemma DayMattersIff(main: string)
    ensures GetBackground(Some(Condition(main, true))) != GetBackground(Some(Condition(main, false)))
            <==> HasDayNightPair(main)
  {
  }
}

=== FILE: js_string.dfy ===
/** The part of JavaScript string semantics the weather client relies on:
    `String.prototype.trim`, the truthiness of a trimmed string, and the
    `length` of a string, which counts UTF-16 code units. Dafny strings are
    sequences of Unicode scalar values, so a code point outside the Basic
    Multilingual Plane is one character here and two units in JavaScript. */
module JsString {

  /** The code points `trim` strips: ECMAScript WhiteSpace (tab, vertical tab,
      form feed, space, no-break space, byte order mark and the Zs category)
      and LineTerminator (line feed, carriage return, U+2028, U+2029). */
  predicate IsWhitespace(c: char) {
    var n := c as int;
    || n == 0x09 || n == 0x0A || n == 0x0B || n == 0x0C || n == 0x0D
    || n == 0x20 || n == 0xA0 || n == 0x1680 || (0x2000 <= n <= 0x200A)
    || n == 0x2028 || n == 0x2029 || n == 0x202F || n == 0x205F
    || n == 0x3000 || n == 0xFEFF
  }

  predicate AllWhitespace(s: string) {
    forall i :: 0 <= i < |s| ==> IsWhitespace(s[i])
  }

  /** `s` with its leading whitespace removed; it does not start with
      whitespace. `TrimStartShape` shows it is a suffix of `s`. */
  function TrimStart(s: string): (r: string)
    ensures |r| <= |s|
    ensures r != [] ==> !IsWhitespace(r[0])
  {
    if |s| > 0 && IsWhitespace(s[0]) then TrimStart(s[1..]) else s
  }

  /** `TrimStart` keeps a suffix of its input and drops only whitespace. */
  lemma {:induction false} TrimStartShape(s: string)
    ensures TrimStart(s) == s[|s| - |TrimStart(s)|..]
    ensures forall i :: 0 <= i < |s| - |TrimStart(s)| ==> IsWhitespace(s[i])
    decreases |s|
  {
    if |s| > 0 && IsWhitespace(s[0]) {
      TrimStartShape(s[1..]);
      assert forall i :: 1 <= i < |s| - |TrimStart(s)| ==> s[i] == s[1..][i - 1];
    }
  }

  /** `s` with its trailing whitespace removed; it does not end with
      whitespace. `TrimEndShape` shows it is a prefix of `s`. */
  function TrimEnd(s: string): (r: string)
    ensures |r| <= |s|
    ensures r != [] ==> !IsWhitespace(r[|r| - 1])
  {
    if |s| > 0 && IsWhitespace(s[|s| - 1]) then TrimEnd(s[..|s| - 1]) else s
  }

  /** `TrimEnd` keeps a prefix of its input and drops only whitespace. */
  lemma {:induction false} TrimEndShape(s: string)
    ensures TrimEnd(s) == s[..|TrimEnd(s)|]
    ensures forall i :: |TrimEnd(s)| <= i < |s| ==> IsWhitespace(s[i])
    decreases |s|
  {
    if |s| > 0 && IsWhitespace(s[|s| - 1]) {
      TrimEndShape(s[..|s| - 1]);
      assert forall i :: |TrimEnd(s)| <= i < |s| - 1 ==> s[i] == s[..|s| - 1][i];
    }
  }

  /** Number of leading characters `trim` drops. */
  function TrimOffset(s: string): nat
  {
    |s| - |TrimStart(s)|
  }

  /** `String.prototype.trim`: whitespace stripped at both ends, so the
      result neither starts nor ends with whitespace. `TrimShape` shows it
      is the contiguous middle of `s`. */
  function Trim(s: string): (r: string)
    ensures TrimOffset(s) + |r| <= |s|
    ensures r != [] ==> !IsWhitespace(r[0]) && !IsWhitespace(r[|r| - 1])
  {
    TrimEndShape(TrimStart(s));
    TrimEnd(TrimStart(s))
  }

  /** `trim` keeps the contiguous middle of its input starting at
      `TrimOffset`, and everything it drops on either side is whitespace. */
  lemma TrimShape(s: string)
    ensures Trim(s) == s[TrimOffset(s)..TrimOffset(s) + |Trim(s)|]
    ensures forall i :: 0 <= i < TrimOffset(s) ==> IsWhitespace(s[i])
    ensures forall i :: TrimOffset(s) + |Trim(s)| <= i < |s| ==> IsWhitespace(s[i])
  {
    var t := TrimStart(s);
    var k := TrimOffset(s);
    TrimStartShape(s);
    TrimEndShape(t);
    assert forall i :: k + |Trim(s)| <= i < |s| ==> s[i] == t[i - k];
  }

  /** `s.trim()` is the empty string, which JavaScript treats as falsy, exactly
      when `s` consists of whitespace only (the empty string included). */
  lemma TrimEmptyIffAllWhitespace(s: string)
    ensures Trim(s) == [] <==> AllWhitespace(s)
  {
    var r := Trim(s);
    var k := TrimOffset(s);
    TrimShape(s);
    if r == [] {
      assert forall i :: 0 <= i < |s| ==> IsWhitespace(s[i]) by {
        forall i | 0 <= i < |s|
          ensures IsWhitespace(s[i])
        {
          if i >= k {
            assert k + |r| <= i;
          }
        }
      }
    } else {
      assert s[k] == r[0];
    }
  }

  /** Trimming an already trimmed string changes nothing. */
  lemma TrimIdempotent(s: string)
    ensures Trim(Trim(s)) == Trim(s)
  {
  }

  /** UTF-16 code units needed for one code point. */
  function Utf16Units(c: char): nat
  {
    if c as int >= 0x1_0000 then 2 else 1
  }

  /** JavaScript's `length`: the number of UTF-16 code units. It lies between
      the number of code points and twice that. */
  function Utf16Length(s: string): (n: nat)
    ensures |s| <= n <= 2 * |s|
  {
    if s == [] then 0 else Utf16Units(s[0]) + Utf16Length(s[1..])
  }

  /** The JavaScript length equals the number of code points exactly when
      every code point is in the Basic Multilingual Plane. */
  lemma {:induction false} Utf16LengthIsSizeIffBmp(s: string)
    ensures Utf16Length(s) == |s| <==> forall i :: 0 <= i < |s| ==> s[i] as int < 0x1_0000
    decreases |s|
  {
    if s != [] {
      Utf16LengthIsSizeIffBmp(s[1..]);
      assert forall i :: 1 <= i < |s| ==> s[i] == s[1..][i - 1];
    }
  }
}

=== FILE: wrappers.dfy ===
/** Optional values: JavaScript's `null` on one side, a present value on the other. */
module Wrappers {

  datatype Option<+T> = None | Some(value: T)
}
